=== FILE: README.md ===
# coap-shepherd registration bookkeeping, in Dafny

This project models the registration core of coap-shepherd, a CoAP
device-management server (`lib/coap-shepherd.js`). Embedded devices
register over CoAP (RFC 7252). The shepherd keeps an in-memory registry
of device records (`CoapNode`s) keyed by client name, and a counter
`_clientIdCount` that starts at 1.

What is modelled:

- **Inbound classifier** `_clientReqParser` (`Classifier.Classify`). It
  maps code, confirmable flag, payload length, method and Observe option
  (section 2 of RFC 7641) to one of `empty`, `notify`, `register`,
  `updata`, `deregister` or undefined.
- **Dispatch** `_clientReqHandler` (`Handlers.Dispatch`). It routes a
  classified message to its handler. An empty message only resets the
  exchange.
- **Lifecycle handlers** for register, update, deregister and notify,
  plus the administrative `deregisterNode`. Each is a pure step
  `State -> Outcome`. An outcome holds the next state, the reply (CoAP
  code 2.01, 2.02, 2.04 or 4.04, and a Location-Path `rd/<clientId>` on
  registration), the `ind` events emitted, and the calls made on the
  device record.
- **Lookups**: `find` by name and `_findById`. `_findById` is a linear
  scan in which the last match wins.
- **Enabled-flag gate** of `stop` and `request`.

The registry is a sequence of records in JavaScript key-enumeration
(insertion) order. This keeps the "last match wins" scan faithful.
`Registry.UniqueNames` is the condition under which that sequence is a
map. `Invariants.WellFormed` (unique names; every record registered,
online and holding its resource model) holds initially and is kept by
every step. `Invariants.IdsFromCounter` (ids distinct and below the
counter) is kept whenever a fresh record takes its id from the counter.

Inputs that come from code outside this file are parameters of the model:

- `mint`: the client id the `CoapNode` constructor gives a fresh record.
  The allocation lemmas take it to be the counter's current value.
- `Message.devAttrs`: what `cutils.getDevAttr` parses from a request.
- `Message.pathId`: what `cutils.uriParser` parses from the URL, `None`
  when the URL has no id segment.
- `engine` in `Shepherd.Request`: the outcome of the outbound request
  engine `_coapRequest`.

Three behaviours of the code worth noting, which the model keeps:

- The classifier never reads the URI. Any POST whose Observe option is
  not exactly 0 is `register`, including an Observe present with another
  value. Any PUT is an update and any DELETE a deregistration, whatever
  the path.
- Re-registration answers 2.01 and emits `registered`, like a first
  registration.
- Notify does not mutate the registry and makes no device-record call.

## Model

| member | source | states |
|---|---|---|
| `Classifier.Classify` | lib/coap-shepherd.js:390-415 | A confirmable 0.00 message with an empty payload is `empty`, whatever its method. Otherwise POST with Observe equal to 0 is `notify`, every other POST `register`, PUT `updata`, DELETE `deregister`, and any other method unclassified. Each direction of each case is stated as an if-and-only-if. |
| `Classifier.MethodDecides` | lib/coap-shepherd.js:396-411 | Outside the empty-message case the code, confirmable flag and payload length do not affect the classification. Only method and Observe do. |
| `Handlers.Dispatch` | lib/coap-shepherd.js:254-278 | Each classification runs the handler its switch case names. `register` runs register, `updata` runs update, `deregister` runs deregister and `notify` runs notify, each on the message's parsed attributes, id or payload. An empty message only resets the exchange and an unclassified one gets no reply; neither changes anything. Per kind, the reply code follows: 2.01 with a Location-Path for register, 2.04 or 4.04 for update and notify, 2.02 or 4.04 for deregister. The enabled flag and server are never touched. |
| `Registry.Find` | lib/coap-shepherd.js:69-80 | `find` resolves iff the name is a registry key, and then with a record of that name. |
| `Registry.ScanById` | lib/coap-shepherd.js:82-99 | The scan resolves iff some record carries the id. The record it yields carries the id and no later record in enumeration order does. |
| `Registry.RemoveName` | lib/coap-shepherd.js:347-348 | After `delete _registry[name]` a record is in the registry iff it was before and has another name. |
| `Registry.RemoveUnique` | lib/coap-shepherd.js:152-153 | With unique names, deleting the key of the record at position i removes exactly that record and keeps all others in order. |
| `Registry.RemoveKeyed` | lib/coap-shepherd.js:145-153 | With unique names, `delete _registry[name]` takes out exactly the record `_registry[name]` read, and keeps the others in order. |
| `Handlers.Register` | lib/coap-shepherd.js:280-311 | A new name adds exactly one record, under that name, with id `mint`, online and registered. The counter rises by exactly 1 and the name set grows by that name. A known name keeps its record and id, its name set and its counter, and leaves every other record unchanged. Both cases answer 2.01 with Location-Path `rd/<clientId>` and emit `registered`. `find` then yields the record. |
| `Handlers.Update` | lib/coap-shepherd.js:313-336 | An unknown id answers 4.04 with the error payload, emits nothing, makes no call and leaves the state unchanged. A known id changes only the record `_findById` resolved, and only that record's attributes. Every other record, and that record's name, id, status, registered flag and resource model, stay as they were, and so do the counter and name set. It answers 2.04 and emits `update` with the diff against the previous attributes. |
| `Handlers.Deregister` | lib/coap-shepherd.js:338-358 | An unknown id answers 4.04 and changes nothing. A known id removes the name of the record `_findById` resolves, and only that name. It returns that same record unregistered, offline and without resource model, keeps the counter, answers 2.02 and emits one `deregistered`. |
| `Handlers.Notify` | lib/coap-shepherd.js:360-373 | A known id leaves the whole state unchanged, answers 2.04 and emits `notify` with the request payload. An unknown id answers 4.04. |
| `Handlers.DeregisterNode` | lib/coap-shepherd.js:143-158 | For a registered name, removes exactly that key. `find` then fails for it. It retires the record `_registry[clientName]` held, and no other. With unique names, the other records stay in their order. It sends no reply, emits one `deregistered`, cancels pending operations and disables the life checker. |
| `Handlers.DiffRoundTrip` | lib/coap-shepherd.js:322-330 | The diff an update reports is enough to rebuild the new attributes from the old ones. |
| `Coap.LocationPath` | lib/coap-shepherd.js:293 | The Location-Path is `rd/` followed by decimal digits whose value is the client id, with no leading zero. |
| `Coap.DecimalRoundTrip` | lib/coap-shepherd.js:303 | Reading back the decimal text of a client id gives the id. |
| `Coap.LocationPathInjective` | lib/coap-shepherd.js:292-293 | Two client ids share a Location-Path iff they are equal. |
| `Shepherd.Stop` | lib/coap-shepherd.js:47-67 | Disabled: succeeds and changes nothing. Enabled without a server: rejected. Otherwise ends disabled with no server, registry and counter kept. |
| `Shepherd.Request` | lib/coap-shepherd.js:101-115 | Disabled: rejected with "not enabled" and nothing is sent. Enabled: the request is sent and settles as the outbound engine does. |
| `Shepherd.StopThenRequestRejected` | lib/coap-shepherd.js:104-105 | Once `stop` succeeds every request is rejected unsent. |
| `Shepherd.StopIdempotent` | lib/coap-shepherd.js:51-52 | Stopping a stopped shepherd succeeds and changes nothing. |
| `Invariants.InitialWellFormed` | lib/coap-shepherd.js:14-24 | The constructed shepherd (empty registry, counter 1, disabled, no server) is well formed. |
| `Invariants.RegisterPreserves` | lib/coap-shepherd.js:284-304 | Registration keeps names unique and every record live. With `mint` equal to the counter it keeps ids distinct and below the counter. |
| `Invariants.UpdatePreserves` | lib/coap-shepherd.js:320-330 | Update keeps the registry well formed and its ids distinct and below the counter. Every position keeps its client id and client name. |
| `Invariants.DeregisterPreserves` | lib/coap-shepherd.js:341-352 | Deregistration keeps the registry well formed and its ids distinct and below the counter. |
| `Invariants.DeregisterNodePreserves` | lib/coap-shepherd.js:145-153 | Administrative deregistration keeps the registry well formed and its ids distinct and below the counter. |
| `Invariants.DispatchPreserves` | lib/coap-shepherd.js:254-278 | Every inbound message keeps the state well formed. With fresh ids drawn from the counter, it keeps ids distinct and below the counter. |
| `Invariants.CounterMonotone` | lib/coap-shepherd.js:287 | The counter never decreases. It rises, by exactly 1, iff the message is a registration of a new name. |
| `Invariants.FreshIdAboveAll` | lib/coap-shepherd.js:285-287 | A fresh registration's id exceeds every id in the registry. |
| `Invariants.SuccessiveIdsIncrease` | lib/coap-shepherd.js:284-294 | Two new names registered in turn receive strictly increasing ids. |
| `Invariants.DeregisterRemovesExactly` | lib/coap-shepherd.js:341-352 | With unique names and ids, deregistering the id at position i removes exactly that record and keeps every other one in its place. |
| `Invariants.DeregisterForgets` | lib/coap-shepherd.js:341-352 | After a successful deregistration neither `find` by the name nor `_findById` by the id resolves. |
| `Invariants.RunCounterGrows` | lib/coap-shepherd.js:287 | However many messages are dispatched in turn, the counter never ends lower than it started. |
| `Invariants.IdNeverReused` | lib/coap-shepherd.js:287 | After a deregistration, any number of messages may arrive. A later registration of a new name, drawing from the counter, never receives the removed id. |
| `Scenarios.Dev1Lifecycle` | lib/coap-shepherd.js:280-358 | Each step runs on the state the previous step left. `dev-1` registers with id 1 and Location-Path `rd/1`. An update to lifetime 600 answers 2.04 with the diff `{lifetime: 600}`. Deletion answers 2.02 and makes the device unfindable by name and by id. An update for id 99 then answers 4.04 and changes nothing. |

## Left out

- `_coapRequest` and `_coapServerStart` (UDP agent and server, the 30 s reply timer, stream piping, JSON decoding): I/O, timers and library calls. `Shepherd.Request` takes the engine's outcome as a parameter.
- `start` and `_testShepherd`: the self-test promise is never resolved, so the code never enables the shepherd. The enabled flag is part of the state, and no start transition is claimed.
- `announce`: it calls `shepherd.require`, which does not exist.
- The empty request stubs `readReq` to `observeReq`.
- `CoapNode` internals (`_updateAttrs`, `_readAllResource`, the life checker, `_cancelAll`, and how the constructor derives `clientId`). `coapNode.js` is not part of this model. These calls are recorded in `Outcome.calls` and always succeed. `_updateAttrs` is modelled as replacing ip, port and lifetime and reporting the fields that changed.
- `cutils.getDevAttr` and `cutils.uriParser`: `utils/cutils.js` is not part of this model. Their results are fields of `Handlers.Message`. The model does not reproduce the strict `===` comparison between the parsed id and a record's `clientId`. A string id would never equal a numeric one; the model compares numbers.
- Interleaving of handlers across promise suspensions (the check-then-mutate gap). Each handler is one atomic step, including the resource read and event emission that follow its reply.
- Console logging and the `nodeify` callback plumbing.
- Number width: `_clientIdCount` and every `clientId` are JavaScript numbers (IEEE 754 doubles). At 2^53, `_clientIdCount += 1` gives back the same value, so the counter stops rising. The model's counter and ids are unbounded `nat`s, which match the source only below 2^53. `Invariants.CounterMonotone` ("rises by exactly 1"), `Invariants.SuccessiveIdsIncrease`, `Invariants.FreshIdAboveAll`, `Invariants.RunCounterGrows` and `Invariants.IdNeverReused` hold of the source only while the counter is below 2^53. `Coap.Decimal` matches JavaScript's number-to-string conversion only below 10^21, where JavaScript switches to exponent notation.
- Handlers.DeregisterNode: requires the name to be registered. The source dereferences a missing record and throws. Its returned promise never settles, which is not modelled either.
- Registry key enumeration: JavaScript lists integer-like keys first, in numeric order. The model uses insertion order for every name. Names that collide with `Object.prototype` properties (such as `constructor`) are treated as absent. In the source, `_registry[name]` would find the inherited property.
- The `.fail` branch of update also catches failures of `_updateAttrs` and `_readAllResource`. Those calls always succeed here, so 4.04 comes only from an unknown id.

=== FILE: classifier.dfy ===
/** The inbound classifier `_clientReqParser`: it maps the code, the
    confirmable flag, the payload length, the method and the Observe option
    of a received message to the operation it asks for. The URI is not an
    argument: the classifier never reads it. */
module Classifier {
  import opened Wrappers
  import opened Coap

  /** The tag the classifier returns. `Update` is the tag the source spells
      `'updata'`; `Unclassified` is its `undefined`. */
  datatype Kind = Empty | Notify | Register | Update | Deregister | Unclassified

  /** A confirmable message with code 0.00 and no payload: the empty
      confirmable message a peer sends as a ping (section 4.3 of RFC 7252). */
  predicate IsEmptyMessage(code: Code, confirmable: bool, payloadLength: nat) {
    code == EmptyCode && confirmable && payloadLength == 0
  }

  /** The Observe option (section 2 of RFC 7641) is present with value 0. */
  predicate ObserveIsZero(observe: Option<nat>) {
    observe == Some(0)
  }

  function Classify(code: Code, confirmable: bool, payloadLength: nat,
                    verb: Method, observe: Option<nat>): (k: Kind)
    // an empty confirmable message is recognised before the method is read
    ensures k == Empty <==> IsEmptyMessage(code, confirmable, payloadLength)
    // every other message is classified by method alone, Observe splitting POST
    ensures k == Notify <==>
      !IsEmptyMessage(code, confirmable, payloadLength) && verb == Post && ObserveIsZero(observe)
    ensures k == Register <==>
      !IsEmptyMessage(code, confirmable, payloadLength) && verb == Post && !ObserveIsZero(observe)
    ensures k == Update <==> !IsEmptyMessage(code, confirmable, payloadLength) && verb == Put
    ensures k == Deregister <==> !IsEmptyMessage(code, confirmable, payloadLength) && verb == Delete
    ensures k == Unclassified <==>
      !IsEmptyMessage(code, confirmable, payloadLength) && verb !in {Post, Put, Delete}
  {
    if IsEmptyMessage(code, confirmable, payloadLength) then Empty
    else match verb
      case Post => if ObserveIsZero(observe) then Notify else Register
      case Put => Update
      case Delete => Deregister
      case _ => Unclassified
  }

  /** Outside the empty-message case, neither the code, the confirmable
      flag nor the payload length changes the classification. */
  lemma MethodDecides(code1: Code, confirmable1: bool, length1: nat,
                      code2: Code, confirmable2: bool, length2: nat,
                      verb: Method, observe: Option<nat>)
    requires !IsEmptyMessage(code1, confirmable1, length1)
    requires !IsEmptyMessage(code2, confirmable2, length2)
    ensures Classify(code1, confirmable1, length1, verb, observe)
         == Classify(code2, confirmable2, length2, verb, observe)
  {
  }
}

=== FILE: coap.dfy ===
/** The part of the Constrained Application Protocol (RFC 7252) vocabulary
    that the shepherd reads and writes: message codes, request methods,
    bytes, and the decimal rendering of a client id inside a
    Location-Path value. */
module Coap {

  newtype byte = x: int | 0 <= x < 256

  /** A message code written `c.dd`: a class and a detail
      (section 3 and section 12.1 of RFC 7252). */
  datatype Code = Code(cls: nat, detail: nat)

  /** 0.00, the code of an Empty message (section 4.1 of RFC 7252). */
  const EmptyCode: Code := Code(0, 0)
  /** 2.01 Created (section 5.9.1.1 of RFC 7252). */
  const Created: Code := Code(2, 1)
  /** 2.02 Deleted (section 5.9.1.2 of RFC 7252). */
  const Deleted: Code := Code(2, 2)
  /** 2.04 Changed (section 5.9.1.4 of RFC 7252). */
  const Changed: Code := Code(2, 4)
  /** 4.04 Not Found (section 5.9.2.5 of RFC 7252). */
  const NotFound: Code := Code(4, 4)

  /** The request method a received message carries; `Other` stands for
      every method name the shepherd does not switch on. */
  datatype Method = Get | Post | Put | Delete | Other

  predicate IsDigit(c: char) {
    '0' <= c <= '9'
  }

  predicate AllDigits(s: string) {
    forall i :: 0 <= i < |s| ==> IsDigit(s[i])
  }

  function Digit(d: nat): (c: char)
    requires d < 10
    ensures IsDigit(c)
  {
    ('0' as int + d) as char
  }

  function DigitValue(c: char): (d: nat)
    requires IsDigit(c)
    ensures d < 10
  {
    (c as int - '0' as int) as nat
  }

  /** The decimal text JavaScript produces when a non-negative integer
      below 10^21 is concatenated to a string: no sign, no leading zero.
      (From 10^21 on, JavaScript switches to exponent notation; client ids
      never get there, see the counter's bound in the README.) */
  function Decimal(n: nat): (s: string)
    ensures 1 <= |s|
    ensures AllDigits(s)
    ensures |s| > 1 ==> s[0] != '0'
  {
    if n < 10 then [Digit(n)] else Decimal(n / 10) + [Digit(n % 10)]
  }

  /** The number a string of decimal digits denotes. */
  function DecimalValue(s: string): nat
    requires AllDigits(s)
  {
    if |s| == 0 then 0
    else DecimalValue(s[..|s| - 1]) * 10 + DigitValue(s[|s| - 1])
  }

  /** Reading back the decimal text of `n` gives `n`. */
  lemma {:induction false} DecimalRoundTrip(n: nat)
    ensures DecimalValue(Decimal(n)) == n
  {
    var s := Decimal(n);
    if n < 10 {
      assert s[..0] == [];
    } else {
      DecimalRoundTrip(n / 10);
      assert s[..|s| - 1] == Decimal(n / 10);
    }
  }

  const LocationPrefix: string := "rd/"

  /** The Location-Path value `'rd/' + clientId` a registration answers
      with (the registration-resource path of the device). */
  function LocationPath(id: nat): (p: string)
    ensures |p| > |LocationPrefix|
    ensures p[..|LocationPrefix|] == LocationPrefix
    ensures AllDigits(p[|LocationPrefix|..])
    ensures DecimalValue(p[|LocationPrefix|..]) == id
    ensures |p| > |LocationPrefix| + 1 ==> p[|LocationPrefix|] != '0'
  {
    var p := LocationPrefix + Decimal(id);
    assert p[|LocationPrefix|..] == Decimal(id);
    DecimalRoundTrip(id);
    p
  }

  /** Distinct client ids are announced under distinct Location-Paths, so
      the path a device is told identifies its registration. */
  lemma LocationPathInjective(a: nat, b: nat)
    ensures LocationPath(a) == LocationPath(b) <==> a == b
  {
  }
}

=== FILE: handlers.dfy ===
/** The inbound side of the shepherd: the four lifecycle handlers
    (register, update, deregister, notify), the administrative
    `deregisterNode`, and the dispatch `_clientReqHandler` that routes a
    classified message to them.

    Each handler is one atomic step from a shepherd state to an `Outcome`:
    the next state, the reply put on the exchange, the `ind` events
    emitted, the calls made on the device record (`CoapNode`), and the
    record the handler acted on as it stands afterwards. The device-record
    calls are recorded, not executed: they always succeed. */
module Handlers {
  import opened Wrappers
  import opened Coap
  import opened Registry
  import opened Shepherd
  import Classifier

  /** What `cutils.getDevAttr` reads from a registration. */
  datatype DevAttrs = DevAttrs(clientName: string, attrs: Attrs)

  /** A received message, with the parts the shepherd uses. `devAttrs` is
      what `cutils.getDevAttr` parses out of it; `pathId` is the client id
      `cutils.uriParser` takes from the second URI segment, `None` when
      the URI has none. */
  datatype Message = Message(code: Code, confirmable: bool, payload: seq<byte>,
                             verb: Method, observe: Option<nat>,
                             devAttrs: DevAttrs, pathId: Option<nat>)

  /** The response body: empty, or the `Error` a handler ends the
      response with when its lookup fails. */
  datatype Body = NoPayload | NotFoundError

  /** What happens on the exchange: a response, a reset, or nothing. */
  datatype Reply =
    | Respond(code: Code, location: Option<string>, body: Body)
    | ResetExchange
    | NoReply

  /** The attributes an update changed: a field is present iff it changed. */
  datatype Diff = Diff(ip: Option<string>, port: Option<nat>, lifetime: Option<nat>)

  /** The payloads of the `ind` event. */
  datatype Ind =
    | Registered(node: Node)
    | Updated(diff: Diff)
    | Deregistered
    | Notified(payload: seq<byte>)

  /** The device-record calls a handler makes: `_updateAttrs`,
      `enableLifeChecker`, `_readAllResource`, `_cancelAll`,
      `disableLifeChecker`. */
  datatype Call = UpdateAttrs | EnableLifeChecker | ReadAllResource | CancelAll | DisableLifeChecker

  datatype Outcome = Outcome(state: State, reply: Reply, events: seq<Ind>,
                             calls: seq<Call>, subject: Option<Node>)

  const NotFoundReply: Reply := Respond(NotFound, None, NotFoundError)

  /** The outcome of a handler whose lookup by id failed. */
  function Rejected(s: State): (o: Outcome)
    ensures o.state == s && o.reply.Respond? && o.reply.code == NotFound
    ensures o.events == [] && o.calls == [] && o.subject.None?
  {
    Outcome(s, NotFoundReply, [], [], None)
  }

  /** `_updateAttrs`: the attributes of `a` replaced by `b`, and the fields
      that changed. */
  function AttrDiff(a: Attrs, b: Attrs): (d: Diff)
    ensures d.ip.Some? <==> a.ip != b.ip
    ensures d.port.Some? <==> a.port != b.port
    ensures d.lifetime.Some? <==> a.lifetime != b.lifetime
  {
    Diff(if a.ip == b.ip then None else Some(b.ip),
         if a.port == b.port then None else Some(b.port),
         if a.lifetime == b.lifetime then None else Some(b.lifetime))
  }

  function ApplyDiff(a: Attrs, d: Diff): Attrs {
    Attrs(if d.ip.Some? then d.ip.value else a.ip,
          if d.port.Some? then d.port.value else a.port,
          if d.lifetime.Some? then d.lifetime.value else a.lifetime)
  }

  /** The diff an update reports is enough to rebuild the new attributes
      from the old ones. */
  lemma DiffRoundTrip(a: Attrs, b: Attrs)
    ensures ApplyDiff(a, AttrDiff(a, b)) == b
  {
  }

  /** Some record carries the id `id` taken from the URI. */
  predicate Carries(t: Table, id: Option<nat>) {
    id.Some? && HasId(t, id.value)
  }

  /** The position `_findById(id)` resolves to. */
  function Lookup(t: Table, id: Option<nat>): (r: Option<nat>)
    ensures r.Some? <==> Carries(t, id)
    ensures r.Some? ==> r.value < |t| && t[r.value].clientId == id.value
  {
    if id.None? then None else LastIndexWithId(t, id.value)
  }

  /** `_clientRegisterHandler`. A fresh name gets a new record with client
      id `mint` (the id the record's constructor draws), marked online and
      registered, and the counter moves on by one; a known name keeps its
      record, whose attributes are refreshed. Either way the answer is 2.01
      with Location-Path `rd/<clientId>` and a `registered` event. */
  function Register(s: State, a: DevAttrs, mint: nat): (o: Outcome)
    ensures o.state.enabled == s.enabled && o.state.server == s.server
    ensures o.subject.Some? && o.subject.value.clientName == a.clientName
    ensures o.subject.value.attrs == a.attrs
    ensures Find(o.state.registry, a.clientName) == o.subject
    ensures o.reply == Respond(Created, Some(LocationPath(o.subject.value.clientId)), NoPayload)
    ensures o.events == [Registered(o.subject.value)]
    // fresh name
    ensures a.clientName !in Names(s.registry) ==>
      && o.state.registry == s.registry + [o.subject.value]
      && Names(o.state.registry) == Names(s.registry) + {a.clientName}
      && o.state.clientIdCount == s.clientIdCount + 1
      && o.subject.value.clientId == mint
      && o.subject.value.registered && o.subject.value.status == Online
      && o.calls == [EnableLifeChecker, ReadAllResource]
    // known name
    ensures a.clientName in Names(s.registry) ==>
      && |o.state.registry| == |s.registry|
      && Names(o.state.registry) == Names(s.registry)
      && o.state.clientIdCount == s.clientIdCount
      && o.subject.value.clientId == Find(s.registry, a.clientName).value.clientId
      && (forall i :: 0 <= i < |s.registry| && s.registry[i].clientName != a.clientName ==>
            o.state.registry[i] == s.registry[i])
      && o.calls == [UpdateAttrs, EnableLifeChecker, ReadAllResource]
  {
    var t := s.registry;
    match IndexOfName(t, a.clientName)
    case None =>
      var node := Node(a.clientName, mint, a.attrs, true, Online, true);
      var t' := t + [node];
      IndexOfNameIs(t', a.clientName, |t|);
      assert Names(t') == Names(t) + {a.clientName} by {
        assert forall n :: n in t' <==> n in t || n == node;
      }
      Outcome(s.(registry := t', clientIdCount := s.clientIdCount + 1),
              Respond(Created, Some(LocationPath(mint)), NoPayload),
              [Registered(node)], [EnableLifeChecker, ReadAllResource], Some(node))
    case Some(i) =>
      var node := t[i].(attrs := a.attrs);
      var t' := t[i := node];
      IndexOfNameIs(t', a.clientName, i);
      NamesOfReplace(t, i, node);
      Outcome(s.(registry := t'),
              Respond(Created, Some(LocationPath(node.clientId)), NoPayload),
              [Registered(node)], [UpdateAttrs, EnableLifeChecker, ReadAllResource], Some(node))
  }

  /** Replacing a record by one with the same name keeps the name set. */
  lemma NamesOfReplace(t: Table, i: nat, node: Node)
    requires i < |t| && node.clientName == t[i].clientName
    ensures Names(t[i := node]) == Names(t)
  {
    var t' := t[i := node];
    forall x | x in Names(t) ensures x in Names(t') {
      var n :| n in t && n.clientName == x;
      var k :| 0 <= k < |t| && t[k] == n;
      assert t'[k].clientName == x;
    }
    forall x | x in Names(t') ensures x in Names(t) {
      var n :| n in t' && n.clientName == x;
      var k :| 0 <= k < |t'| && t'[k] == n;
      assert t[k].clientName == x;
    }
  }

  /** `_clientUpdateHandler`. A known id has its record's attributes
      refreshed in place, answers 2.04 and reports the diff; an unknown id
      answers 4.04 and changes nothing. */
  function Update(s: State, id: Option<nat>, attrs: Attrs): (o: Outcome)
    ensures !Carries(s.registry, id) ==> o == Rejected(s)
    ensures Carries(s.registry, id) ==>
      && o.state.enabled == s.enabled && o.state.server == s.server
      && o.state.clientIdCount == s.clientIdCount
      && |o.state.registry| == |s.registry|
      && Names(o.state.registry) == Names(s.registry)
      && o.subject.Some? && o.subject.value in o.state.registry
      && Some(o.subject.value.clientId) == id
      && o.subject.value.attrs == attrs
      && o.reply == Respond(Changed, None, NoPayload)
      && o.calls == [UpdateAttrs, EnableLifeChecker, ReadAllResource]
    // only the record `_findById` resolved changes, and only its attributes
    ensures Carries(s.registry, id) ==>
      var i := Lookup(s.registry, id).value;
      && o.state.registry[i] == s.registry[i].(attrs := attrs)
      && o.subject == Some(o.state.registry[i])
      && o.events == [Updated(AttrDiff(s.registry[i].attrs, attrs))]
      && (forall k :: 0 <= k < |s.registry| && k != i ==> o.state.registry[k] == s.registry[k])
  {
    var t := s.registry;
    match Lookup(t, id)
    case None => Rejected(s)
    case Some(i) =>
      var node := t[i].(attrs := attrs);
      NamesOfReplace(t, i, node);
      assert t[i] in t;
      assert t[i := node][i] == node;
      Outcome(s.(registry := t[i := node]), Respond(Changed, None, NoPayload),
              [Updated(AttrDiff(t[i].attrs, attrs))],
              [UpdateAttrs, EnableLifeChecker, ReadAllResource], Some(node))
  }

  /** A record as deregistration leaves it: unregistered, offline, without
      its resource model. */
  function Retired(n: Node): (r: Node)
    ensures !r.registered && r.status == Offline && !r.objects
    ensures r.clientName == n.clientName && r.clientId == n.clientId && r.attrs == n.attrs
  {
    n.(registered := false, status := Offline, objects := false)
  }

  /** `_clientDeregisterHandler`. A known id has its record retired and
      removed under its name, answers 2.02 and emits `deregistered`; an
      unknown id answers 4.04 and changes nothing. */
  function Deregister(s: State, id: Option<nat>): (o: Outcome)
    ensures !Carries(s.registry, id) ==> o == Rejected(s)
    ensures Carries(s.registry, id) ==>
      && o.state.enabled == s.enabled && o.state.server == s.server
      && o.state.clientIdCount == s.clientIdCount
      && o.subject.Some? && Some(o.subject.value.clientId) == id
      && Retired(o.subject.value) == o.subject.value
      && o.subject.value.clientName in Names(s.registry)
      && Names(o.state.registry) == Names(s.registry) - {o.subject.value.clientName}
      && (forall n :: n in o.state.registry <==>
            n in s.registry && n.clientName != o.subject.value.clientName)
      && o.reply == Respond(Deleted, None, NoPayload)
      && o.events == [Deregistered]
      && o.calls == [CancelAll, DisableLifeChecker]
    // the record removed is the one `_findById` resolved
    ensures Carries(s.registry, id) ==>
      o.subject == Some(Retired(s.registry[Lookup(s.registry, id).value]))
  {
    var t := s.registry;
    match Lookup(t, id)
    case None => Rejected(s)
    case Some(i) =>
      var node := t[i];
      assert node in t;
      NamesOfRemove(t, node.clientName);
      Outcome(s.(registry := RemoveName(t, node.clientName)),
              Respond(Deleted, None, NoPayload),
              [Deregistered], [CancelAll, DisableLifeChecker], Some(Retired(node)))
  }

  /** `_clientNotifyHandler`. A known id answers 2.04 and passes the
      payload on in a `notify` event, leaving the state as it was; an
      unknown id answers 4.04. */
  function Notify(s: State, id: Option<nat>, payload: seq<byte>): (o: Outcome)
    ensures !Carries(s.registry, id) ==> o == Rejected(s)
    ensures Carries(s.registry, id) ==>
      && o.state == s
      && o.subject.Some? && o.subject.value in s.registry
      && Some(o.subject.value.clientId) == id
      && o.reply == Respond(Changed, None, NoPayload)
      && o.events == [Notified(payload)]
      && o.calls == []
  {
    match Lookup(s.registry, id)
    case None => Rejected(s)
    case Some(i) =>
      assert s.registry[i] in s.registry;
      Outcome(s, Respond(Changed, None, NoPayload), [Notified(payload)], [], Some(s.registry[i]))
  }

  /** `deregisterNode`: the administrative deregistration by name. There
      is no exchange to answer; the record is retired and removed and
      `deregistered` is emitted. The source dereferences the record
      without checking it exists, so the name must be registered. */
  function DeregisterNode(s: State, name: string): (o: Outcome)
    requires name in Names(s.registry)
    ensures o.state.enabled == s.enabled && o.state.server == s.server
    ensures o.state.clientIdCount == s.clientIdCount
    ensures Names(o.state.registry) == Names(s.registry) - {name}
    ensures Find(o.state.registry, name).None?
    ensures forall n :: n in o.state.registry <==> n in s.registry && n.clientName != name
    ensures o.subject.Some? && o.subject.value.clientName == name
    ensures Retired(o.subject.value) == o.subject.value
    ensures o.reply == NoReply && o.events == [Deregistered]
    ensures o.calls == [CancelAll, DisableLifeChecker]
    // the record retired is the one `_registry[clientName]` held
    ensures o.subject == Some(Retired(Find(s.registry, name).value))
    // with unique names, only that record goes and the rest keep their order
    ensures UniqueNames(s.registry) ==>
      var i := IndexOfName(s.registry, name).value;
      o.state.registry == s.registry[..i] + s.registry[i + 1..]
  {
    var node := Find(s.registry, name).value;
    NamesOfRemove(s.registry, name);
    RemoveKeyed(s.registry, name);
    Outcome(s.(registry := RemoveName(s.registry, name)), NoReply,
            [Deregistered], [CancelAll, DisableLifeChecker], Some(Retired(node)))
  }

  /** The classification `_clientReqParser` gives a message. */
  function KindOf(m: Message): Classifier.Kind {
    Classifier.Classify(m.code, m.confirmable, |m.payload|, m.verb, m.observe)
  }

  /** `_clientReqHandler`: classify, then run the matching handler; an
      empty message only resets the exchange and an unclassified one is
      ignored. `mint` is the id a fresh registration would receive. */
  function Dispatch(s: State, m: Message, mint: nat): (o: Outcome)
    ensures o.state.enabled == s.enabled && o.state.server == s.server
    ensures KindOf(m) == Classifier.Empty ==> o == Outcome(s, ResetExchange, [], [], None)
    ensures KindOf(m) == Classifier.Unclassified ==> o == Outcome(s, NoReply, [], [], None)
    // each classification runs the handler the switch names for it
    ensures KindOf(m) == Classifier.Register ==> o == Register(s, m.devAttrs, mint)
    ensures KindOf(m) == Classifier.Update ==> o == Update(s, m.pathId, m.devAttrs.attrs)
    ensures KindOf(m) == Classifier.Deregister ==> o == Deregister(s, m.pathId)
    ensures KindOf(m) == Classifier.Notify ==> o == Notify(s, m.pathId, m.payload)
    ensures KindOf(m) == Classifier.Register ==>
      o.reply.Respond? && o.reply.code == Created && o.reply.location.Some?
    ensures KindOf(m) == Classifier.Update ==>
      o.reply.Respond? && o.reply.code == (if Carries(s.registry, m.pathId) then Changed else NotFound)
    ensures KindOf(m) == Classifier.Deregister ==>
      o.reply.Respond? && o.reply.code == (if Carries(s.registry, m.pathId) then Deleted else NotFound)
    ensures KindOf(m) == Classifier.Notify ==>
      o.reply.Respond? && o.reply.code == (if Carries(s.registry, m.pathId) then Changed else NotFound)
  {
    match KindOf(m)
    case Register => Register(s, m.devAttrs, mint)
    case Update => Update(s, m.pathId, m.devAttrs.attrs)
    case Deregister => Deregister(s, m.pathId)
    case Notify => Notify(s, m.pathId, m.payload)
    case Empty => Outcome(s, ResetExchange, [], [], None)
    case Unclassified => Outcome(s, NoReply, [], [], None)
  }
}

=== FILE: invariants.dfy ===
/** What every reachable shepherd state satisfies, and the properties of
    the lifecycle that relate several steps: client ids come from the
    counter, are never reused, and a deregistered device can be found
    neither by name nor by id. */
module Invariants {
  import opened Wrappers
  import opened Registry
  import opened Shepherd
  import opened Handlers
  import Classifier

  /** Every record in the registry is registered, online and holds its
      resource model: a record exists in the registry iff it is
      registered. */
  predicate AllLive(t: Table) {
    forall i :: 0 <= i < |t| ==> t[i].registered && t[i].status == Online && t[i].objects
  }

  predicate WellFormed(s: State) {
    && s.clientIdCount >= 1
    && UniqueNames(s.registry)
    && AllLive(s.registry)
  }

  predicate DistinctIds(t: Table) {
    forall i, j :: 0 <= i < j < |t| ==> t[i].clientId != t[j].clientId
  }

  /** Every client id was drawn from the counter: ids are pairwise
      distinct and below the counter's current value. */
  predicate IdsFromCounter(s: State) {
    && (forall i :: 0 <= i < |s.registry| ==> s.registry[i].clientId < s.clientIdCount)
    && DistinctIds(s.registry)
  }

  lemma InitialWellFormed()
    ensures WellFormed(Initial) && IdsFromCounter(Initial)
    ensures Initial.clientIdCount == 1 && !Initial.enabled && Initial.server.None?
  {
  }

  /** Taking the record at `k` out of a table keeps distinct ids
      distinct. */
  lemma DistinctAfterRemoval(t: Table, k: nat)
    requires DistinctIds(t)
    requires k < |t|
    ensures DistinctIds(t[..k] + t[k + 1..])
  {
    RemovedAt(t, k);
  }

  /** Removing a name from a table with unique names keeps names unique
      and keeps distinct ids distinct. */
  lemma RemovalKeepsDistinct(t: Table, name: string)
    requires UniqueNames(t)
    ensures UniqueNames(RemoveName(t, name))
    ensures DistinctIds(t) ==> DistinctIds(RemoveName(t, name))
  {
    var r := IndexOfName(t, name);
    if r.None? {
      RemoveAbsent(t, name);
    } else {
      var k := r.value;
      RemoveUnique(t, k);
      UniqueAfterRemoval(t, k);
      if DistinctIds(t) {
        DistinctAfterRemoval(t, k);
      }
    }
  }

  /** Appending a record under a new name with an id at the counter keeps
      the table's invariants, the counter having moved past the id. */
  lemma AppendKeeps(t: Table, n: Node, c: nat)
    requires UniqueNames(t) && AllLive(t)
    requires n.clientName !in Names(t)
    requires n.registered && n.status == Online && n.objects
    ensures UniqueNames(t + [n]) && AllLive(t + [n])
    ensures (forall i :: 0 <= i < |t| ==> t[i].clientId < c) && DistinctIds(t) && n.clientId == c ==>
      (forall i :: 0 <= i < |t + [n]| ==> (t + [n])[i].clientId < c + 1) && DistinctIds(t + [n])
  {
    assert forall i :: 0 <= i < |t| ==> t[i] in t;
  }

  /** Changing the attributes of the record at `k` keeps the table's
      invariants. */
  lemma ReplaceAttrsKeeps(t: Table, k: nat, attrs: Attrs)
    requires k < |t|
    ensures var r := t[k := t[k].(attrs := attrs)];
      && (UniqueNames(t) ==> UniqueNames(r))
      && (AllLive(t) ==> AllLive(r))
      && (DistinctIds(t) ==> DistinctIds(r))
      && forall i :: 0 <= i < |r| ==> r[i].clientId == t[i].clientId
  {
  }

  lemma RegisterPreserves(s: State, a: DevAttrs, mint: nat)
    requires WellFormed(s)
    ensures WellFormed(Register(s, a, mint).state)
    ensures IdsFromCounter(s) && mint == s.clientIdCount ==>
      IdsFromCounter(Register(s, a, mint).state)
  {
    var t := s.registry;
    var o := Register(s, a, mint);
    var k := IndexOfName(t, a.clientName);
    if k.None? {
      AppendKeeps(t, o.subject.value, s.clientIdCount);
    } else {
      ReplaceAttrsKeeps(t, k.value, a.attrs);
    }
  }

  lemma UpdatePreserves(s: State, id: Option<nat>, attrs: Attrs)
    requires WellFormed(s)
    ensures WellFormed(Update(s, id, attrs).state)
    ensures IdsFromCounter(s) ==> IdsFromCounter(Update(s, id, attrs).state)
    ensures var r := Update(s, id, attrs).state.registry;
      |r| == |s.registry| &&
      forall k :: 0 <= k < |r| ==>
        r[k].clientId == s.registry[k].clientId && r[k].clientName == s.registry[k].clientName
  {
    var k := Lookup(s.registry, id);
    if k.Some? {
      ReplaceAttrsKeeps(s.registry, k.value, attrs);
    }
  }

  /** Removing a name keeps the table's invariants, and ids stay below
      any bound they were below. */
  lemma RemovalKeeps(t: Table, name: string, c: nat)
    requires UniqueNames(t) && AllLive(t)
    ensures UniqueNames(RemoveName(t, name)) && AllLive(RemoveName(t, name))
    ensures (forall i :: 0 <= i < |t| ==> t[i].clientId < c) && DistinctIds(t) ==>
      var r := RemoveName(t, name);
      (forall i :: 0 <= i < |r| ==> r[i].clientId < c) && DistinctIds(r)
  {
    RemovalKeepsDistinct(t, name);
    var r := RemoveName(t, name);
    forall i | 0 <= i < |r| ensures r[i] in t {
      assert r[i] in r;
    }
  }

  lemma DeregisterPreserves(s: State, id: Option<nat>)
    requires WellFormed(s)
    ensures WellFormed(Deregister(s, id).state)
    ensures IdsFromCounter(s) ==> IdsFromCounter(Deregister(s, id).state)
  {
    var k := Lookup(s.registry, id);
    if k.Some? {
      var name := s.registry[k.value].clientName;
      assert Deregister(s, id).state == s.(registry := RemoveName(s.registry, name));
      RemovalKeeps(s.registry, name, s.clientIdCount);
    }
  }

  lemma DeregisterNodePreserves(s: State, name: string)
    requires WellFormed(s)
    requires name in Names(s.registry)
    ensures WellFormed(DeregisterNode(s, name).state)
    ensures IdsFromCounter(s) ==> IdsFromCounter(DeregisterNode(s, name).state)
  {
    assert DeregisterNode(s, name).state == s.(registry := RemoveName(s.registry, name));
    RemovalKeeps(s.registry, name, s.clientIdCount);
  }

  /** Every inbound message keeps the state well formed; when fresh ids
      are drawn from the counter, ids stay distinct and below it. */
  lemma DispatchPreserves(s: State, m: Message, mint: nat)
    requires WellFormed(s)
    ensures WellFormed(Dispatch(s, m, mint).state)
    ensures IdsFromCounter(s) && mint == s.clientIdCount ==>
      IdsFromCounter(Dispatch(s, m, mint).state)
  {
    match KindOf(m)
    case Register => RegisterPreserves(s, m.devAttrs, mint);
    case Update => UpdatePreserves(s, m.pathId, m.devAttrs.attrs);
    case Deregister => DeregisterPreserves(s, m.pathId);
    case Notify =>
    case Empty =>
    case Unclassified =>
  }

  /** The counter never moves backwards; only a fresh registration moves
      it, and then by exactly one. */
  lemma CounterMonotone(s: State, m: Message, mint: nat)
    ensures var c := Dispatch(s, m, mint).state.clientIdCount;
      c == s.clientIdCount || c == s.clientIdCount + 1
    ensures Dispatch(s, m, mint).state.clientIdCount == s.clientIdCount + 1 <==>
      KindOf(m) == Classifier.Register && m.devAttrs.clientName !in Names(s.registry)
  {
  }

  /** A fresh registration with an id drawn from the counter gets an id
      above every id in the registry. */
  lemma FreshIdAboveAll(s: State, a: DevAttrs)
    requires IdsFromCounter(s)
    requires a.clientName !in Names(s.registry)
    ensures var o := Register(s, a, s.clientIdCount);
      forall n :: n in s.registry ==> n.clientId < o.subject.value.clientId
  {
  }

  /** Registering two new names one after the other hands out strictly
      increasing client ids. */
  lemma SuccessiveIdsIncrease(s: State, a: DevAttrs, b: DevAttrs)
    requires a.clientName != b.clientName
    requires a.clientName !in Names(s.registry) && b.clientName !in Names(s.registry)
    ensures var o1 := Register(s, a, s.clientIdCount);
      var o2 := Register(o1.state, b, o1.state.clientIdCount);
      o1.subject.value.clientId < o2.subject.value.clientId
  {
  }

  /** With unique names and distinct ids, deregistering the id of the
      record at `i` removes exactly that record, keeps every other one in
      its place, and hands back the record retired. */
  lemma DeregisterRemovesExactly(s: State, i: nat)
    requires WellFormed(s) && DistinctIds(s.registry)
    requires i < |s.registry|
    ensures var o := Deregister(s, Some(s.registry[i].clientId));
      && o.state.registry == s.registry[..i] + s.registry[i + 1..]
      && o.subject == Some(Retired(s.registry[i]))
  {
    var t := s.registry;
    assert Lookup(t, Some(t[i].clientId)) == Some(i);
    RemoveUnique(t, i);
  }

  /** After a successful deregistration neither `find` by the device's
      name nor `_findById` by its id resolves. */
  lemma DeregisterForgets(s: State, id: Option<nat>)
    requires WellFormed(s) && DistinctIds(s.registry)
    requires Carries(s.registry, id)
    ensures var o := Deregister(s, id);
      && Find(o.state.registry, o.subject.value.clientName).None?
      && FindById(o.state.registry, id.value).None?
  {
  }

  /** The state a sequence of inbound messages leaves, each dispatched in
      turn with a fresh id drawn from the counter. */
  function Run(s: State, ms: seq<Message>): State
    decreases |ms|
  {
    if |ms| == 0 then s
    else Run(Dispatch(s, ms[0], s.clientIdCount).state, ms[1..])
  }

  /** However many messages arrive, the counter never moves backwards. */
  lemma {:induction false} RunCounterGrows(s: State, ms: seq<Message>)
    ensures s.clientIdCount <= Run(s, ms).clientIdCount
    decreases |ms|
  {
    if |ms| > 0 {
      CounterMonotone(s, ms[0], s.clientIdCount);
      RunCounterGrows(Dispatch(s, ms[0], s.clientIdCount).state, ms[1..]);
    }
  }

  /** A client id is never handed out again: once a device is
      deregistered, every later registration of a new name, after any
      messages in between, gets a different id from the counter. */
  lemma IdNeverReused(s: State, id: Option<nat>, ms: seq<Message>, m: Message)
    requires WellFormed(s) && IdsFromCounter(s)
    requires Carries(s.registry, id)
    ensures var s1 := Run(Deregister(s, id).state, ms);
      var o := Dispatch(s1, m, s1.clientIdCount);
      KindOf(m) == Classifier.Register && m.devAttrs.clientName !in Names(s1.registry) ==>
        o.subject.value.clientId != id.value
  {
    RunCounterGrows(Deregister(s, id).state, ms);
  }
}

=== FILE: registry.dfy ===
/** The registry `_registry` of the shepherd and its two lookups: `find`
    by client name and `_findById`, a scan over every record.

    A JavaScript object enumerates its keys in insertion order, so the
    registry is kept as the sequence of its records in that order; the
    key of a record is its client name. `UniqueNames` is the condition
    under which such a sequence is a map, and every reachable state
    meets it. */
module Registry {
  import opened Wrappers

  datatype Status = Online | Offline

  /** Network location and lifetime of a device, as read from its
      registration or update request. */
  datatype Attrs = Attrs(ip: string, port: nat, lifetime: nat)

  /** The part of a `CoapNode` the shepherd reads and writes. `objects`
      says whether the node still holds its resource model (`_so`). */
  datatype Node = Node(clientName: string, clientId: nat, attrs: Attrs,
                       registered: bool, status: Status, objects: bool)

  /** `_registry`: the records in key-enumeration order. */
  type Table = seq<Node>

  function Names(t: Table): set<string> {
    set n | n in t :: n.clientName
  }

  predicate UniqueNames(t: Table) {
    forall i, j :: 0 <= i < j < |t| ==> t[i].clientName != t[j].clientName
  }

  /** Some record of `t` carries client id `id`. */
  predicate HasId(t: Table, id: nat) {
    exists i :: 0 <= i < |t| && t[i].clientId == id
  }

  /** The slot `_registry[name]` reads: the position of the record keyed
      by `name`, the last one should the table hold several. */
  function IndexOfName(t: Table, name: string): (r: Option<nat>)
    ensures r.Some? ==> r.value < |t| && t[r.value].clientName == name
    ensures r.Some? ==> forall j :: r.value < j < |t| ==> t[j].clientName != name
    ensures r.None? <==> name !in Names(t)
    decreases |t|
  {
    if |t| == 0 then None
    else if t[|t| - 1].clientName == name then Some(|t| - 1)
    else
      var r := IndexOfName(t[..|t| - 1], name);
      assert name in Names(t[..|t| - 1]) ==> name in Names(t);
      assert name in Names(t) && r.None? ==> name in Names(t[..|t| - 1]) by {
        if name in Names(t) {
          var n :| n in t && n.clientName == name;
          var k :| 0 <= k < |t| && t[k] == n;
          assert t[..|t| - 1][k] == n;
        }
      }
      r
  }

  /** The position `_findById`'s scan settles on: the last record, in
      enumeration order, whose client id is `id`. */
  function LastIndexWithId(t: Table, id: nat): (r: Option<nat>)
    ensures r.Some? ==> r.value < |t| && t[r.value].clientId == id
    ensures r.Some? ==> forall j :: r.value < j < |t| ==> t[j].clientId != id
    ensures r.None? <==> !HasId(t, id)
    decreases |t|
  {
    if |t| == 0 then None
    else if t[|t| - 1].clientId == id then Some(|t| - 1)
    else
      var r := LastIndexWithId(t[..|t| - 1], id);
      assert HasId(t[..|t| - 1], id) ==> HasId(t, id);
      r
  }

  /** `find`: the record registered under `name`, if any. */
  function Find(t: Table, name: string): (r: Option<Node>)
    ensures r.Some? <==> name in Names(t)
    ensures r.Some? ==> r.value in t && r.value.clientName == name
  {
    match IndexOfName(t, name)
    case None => None
    case Some(i) => Some(t[i])
  }

  /** The record `_findById` resolves with, if any. */
  function FindById(t: Table, id: nat): (r: Option<Node>)
    ensures r.Some? <==> HasId(t, id)
    ensures r.Some? ==> r.value in t && r.value.clientId == id
  {
    match LastIndexWithId(t, id)
    case None => None
    case Some(i) => Some(t[i])
  }

  /** `_findById`: visit every record in enumeration order and keep the
      last one whose client id matches. */
  method ScanById(t: Table, id: nat) returns (found: Option<Node>)
    ensures found == FindById(t, id)
    ensures found.Some? ==> found.value in t && found.value.clientId == id
    ensures found.None? <==> !HasId(t, id)
  {
    found := None;
    var i := 0;
    while i < |t|
      invariant 0 <= i <= |t|
      invariant found == FindById(t[..i], id)
    {
      assert t[..i + 1][..i] == t[..i];
      if t[i].clientId == id {
        found := Some(t[i]);
      }
      i := i + 1;
    }
    assert t[..i] == t;
  }

  /** `delete _registry[name]`: drop the record keyed by `name`. */
  function RemoveName(t: Table, name: string): (r: Table)
    ensures forall n :: n in r <==> n in t && n.clientName != name
    ensures |r| <= |t|
  {
    if |t| == 0 then []
    else (if t[0].clientName == name then [] else [t[0]]) + RemoveName(t[1..], name)
  }

  lemma NamesOfRemove(t: Table, name: string)
    ensures Names(RemoveName(t, name)) == Names(t) - {name}
  {
  }

  /** Removing a name no record carries changes nothing. */
  lemma {:induction false} RemoveAbsent(t: Table, name: string)
    requires name !in Names(t)
    ensures RemoveName(t, name) == t
  {
    if |t| > 0 {
      assert t[0] in t;
      assert Names(t[1..]) <= Names(t) by {
        forall x | x in Names(t[1..]) ensures x in Names(t) {
          var n :| n in t[1..] && n.clientName == x;
          assert n in t;
        }
      }
      RemoveAbsent(t[1..], name);
      assert t == [t[0]] + t[1..];
    }
  }

  /** The tail of a table with unique names has unique names. */
  lemma UniqueTail(t: Table)
    requires |t| > 0 && UniqueNames(t)
    ensures UniqueNames(t[1..])
  {
    forall a, b | 0 <= a < b < |t| - 1 ensures t[1..][a].clientName != t[1..][b].clientName {
      assert t[1..][a] == t[a + 1] && t[1..][b] == t[b + 1];
    }
  }

  /** With unique names, the name of the first record occurs nowhere
      after it. */
  lemma HeadNameAbsent(t: Table)
    requires |t| > 0 && UniqueNames(t)
    ensures t[0].clientName !in Names(t[1..])
  {
    forall n | n in t[1..] ensures n.clientName != t[0].clientName {
      var k :| 0 <= k < |t| - 1 && t[1..][k] == n;
      assert t[k + 1] == n;
    }
  }

  /** One step of `RemoveUnique`: when the first record keeps its name
      and the tail loses exactly its record at `i - 1`, the table loses
      exactly its record at `i`. */
  lemma RemoveStep(t: Table, name: string, i: nat)
    requires 0 < i < |t| && t[0].clientName != name
    requires RemoveName(t[1..], name) == t[1..][..i - 1] + t[1..][i..]
    ensures RemoveName(t, name) == t[..i] + t[i + 1..]
  {
    assert RemoveName(t, name) == [t[0]] + RemoveName(t[1..], name);
    ConsSplit(t, i);
  }

  /** Cutting position `i` out of a table is keeping its first record and
      cutting position `i - 1` out of the rest. */
  lemma ConsSplit(t: Table, i: nat)
    requires 0 < i < |t|
    ensures [t[0]] + (t[1..][..i - 1] + t[1..][i..]) == t[..i] + t[i + 1..]
  {
    assert t[..i] == [t[0]] + t[1..][..i - 1];
    assert t[i + 1..] == t[1..][i..];
  }

  /** With unique names, removing the name of the record at `i` removes
      exactly that record and keeps the others in their order. */
  lemma {:induction false} RemoveUnique(t: Table, i: nat)
    requires UniqueNames(t)
    requires i < |t|
    ensures RemoveName(t, t[i].clientName) == t[..i] + t[i + 1..]
  {
    if i == 0 {
      HeadNameAbsent(t);
      RemoveAbsent(t[1..], t[0].clientName);
    } else {
      UniqueTail(t);
      assert t[1..][i - 1] == t[i];
      RemoveUnique(t[1..], i - 1);
      RemoveStep(t, t[i].clientName, i);
    }
  }

  /** With unique names, `delete _registry[name]` takes out exactly the
      record `_registry[name]` held. */
  lemma RemoveKeyed(t: Table, name: string)
    requires name in Names(t)
    ensures UniqueNames(t) ==>
      var i := IndexOfName(t, name).value;
      RemoveName(t, name) == t[..i] + t[i + 1..]
  {
    if UniqueNames(t) {
      RemoveUnique(t, IndexOfName(t, name).value);
    }
  }

  /** The table left once the record at `i` is taken out, position by
      position. */
  lemma RemovedAt(t: Table, i: nat)
    requires i < |t|
    ensures |t[..i] + t[i + 1..]| == |t| - 1
    ensures forall k :: 0 <= k < |t| - 1 ==>
      (t[..i] + t[i + 1..])[k] == if k < i then t[k] else t[k + 1]
  {
  }

  /** After removing the record at `i` from a table with unique names,
      the names stay unique. */
  lemma UniqueAfterRemoval(t: Table, i: nat)
    requires UniqueNames(t)
    requires i < |t|
    ensures UniqueNames(t[..i] + t[i + 1..])
  {
  }

  /** The position an `IndexOfName` call settles on is the only one
      holding `name` past which no record holds it. */
  lemma IndexOfNameIs(t: Table, name: string, k: nat)
    requires k < |t| && t[k].clientName == name
    requires forall j :: k < j < |t| ==> t[j].clientName != name
    ensures IndexOfName(t, name) == Some(k)
  {
  }
}

=== FILE: scenarios.dfy ===
/** One device's whole lifecycle, each step run on the state the one
    before it left: from the freshly constructed shepherd, register, update,
    deregister, and then an update for an id that was never handed out. */
module Scenarios {
  import opened Wrappers
  import opened Coap
  import opened Registry
  import opened Shepherd
  import opened Handlers

  const Dev1: DevAttrs := DevAttrs("dev-1", Attrs("10.0.0.5", 5683, 300))

  function Req(verb: Method, attrs: DevAttrs, pathId: Option<nat>): Message {
    Message(Code(0, if verb == Post then 2 else if verb == Put then 3 else 4),
            true, [], verb, None, attrs, pathId)
  }

  /** The four messages of the lifecycle, in order. */
  const Registration: Message := Req(Post, Dev1, None)
  const Refresh: Message := Req(Put, DevAttrs("dev-1", Attrs("10.0.0.5", 5683, 600)), Some(1))
  const Removal: Message := Req(Delete, Dev1, Some(1))
  const Stray: Message := Req(Put, Dev1, Some(99))

  /** The record of `dev-1` before and after its update, and the states
      the lifecycle passes through. */
  const Node1: Node := Node("dev-1", 1, Dev1.attrs, true, Online, true)
  const Node1Refreshed: Node := Node1.(attrs := Attrs("10.0.0.5", 5683, 600))
  const Registered1: State := State([Node1], 2, false, None)
  const Refreshed1: State := State([Node1Refreshed], 2, false, None)
  const Emptied: State := State([], 2, false, None)

  lemma RegistrationStep()
    ensures Dispatch(Initial, Registration, Initial.clientIdCount)
         == Outcome(Registered1, Respond(Created, Some("rd/1"), NoPayload),
                    [Registered(Node1)], [EnableLifeChecker, ReadAllResource], Some(Node1))
  {
    assert LocationPath(1) == "rd/1";
  }

  lemma RefreshStep()
    ensures Dispatch(Registered1, Refresh, Registered1.clientIdCount)
         == Outcome(Refreshed1, Respond(Changed, None, NoPayload),
                    [Updated(Diff(None, None, Some(600)))],
                    [UpdateAttrs, EnableLifeChecker, ReadAllResource], Some(Node1Refreshed))
  {
    assert Registered1.registry[0].clientId == 1;
    assert HasId(Registered1.registry, 1);
  }

  lemma RemovalStep()
    ensures Dispatch(Refreshed1, Removal, Refreshed1.clientIdCount)
         == Outcome(Emptied, Respond(Deleted, None, NoPayload), [Deregistered],
                    [CancelAll, DisableLifeChecker], Some(Retired(Node1Refreshed)))
  {
    assert Refreshed1.registry[0].clientId == 1;
    assert HasId(Refreshed1.registry, 1);
  }

  lemma StrayStep()
    ensures Dispatch(Emptied, Stray, Emptied.clientIdCount) == Rejected(Emptied)
  {
  }

  lemma Dev1Lifecycle()
    ensures var o1 := Dispatch(Initial, Registration, Initial.clientIdCount);
      && o1.reply == Respond(Created, Some("rd/1"), NoPayload)
      && o1.subject.Some? && o1.subject.value.clientId == 1
      && o1.subject.value.status == Online
      && Find(o1.state.registry, "dev-1") == o1.subject
    ensures var s1 := Dispatch(Initial, Registration, Initial.clientIdCount).state;
      var o2 := Dispatch(s1, Refresh, s1.clientIdCount);
      && o2.reply == Respond(Changed, None, NoPayload)
      && o2.events == [Updated(Diff(None, None, Some(600)))]
      && EnableLifeChecker in o2.calls
    ensures var s1 := Dispatch(Initial, Registration, Initial.clientIdCount).state;
      var s2 := Dispatch(s1, Refresh, s1.clientIdCount).state;
      var o3 := Dispatch(s2, Removal, s2.clientIdCount);
      && o3.reply == Respond(Deleted, None, NoPayload)
      && o3.events == [Deregistered]
      && Find(o3.state.registry, "dev-1").None?
      && FindById(o3.state.registry, 1).None?
    ensures var s1 := Dispatch(Initial, Registration, Initial.clientIdCount).state;
      var s2 := Dispatch(s1, Refresh, s1.clientIdCount).state;
      var s3 := Dispatch(s2, Removal, s2.clientIdCount).state;
      var o4 := Dispatch(s3, Stray, s3.clientIdCount);
      o4.reply.Respond? && o4.reply.code == NotFound && o4.state == s3
  {
    RegistrationStep();
    RefreshStep();
    RemovalStep();
    StrayStep();
  }
}

=== FILE: shepherd.dfy ===
/** The shepherd object: its registry, its client-id counter, its
    enabled flag and its server handle, together with the two operations
    the enabled flag gates, `stop` and `request`. */
module Shepherd {
  import opened Wrappers
  import opened Coap
  import opened Registry

  /** The listening endpoint `server`, reduced to the port it holds. */
  datatype Server = Server(port: nat)

  datatype State = State(registry: Table, clientIdCount: nat,
                         enabled: bool, server: Option<Server>)

  /** The state the constructor builds: empty registry, counter 1,
      disabled, no server. */
  const Initial: State := State([], 1, false, None)

  /** Why a facade operation rejects. `Transport` carries whatever error
      the outbound request engine reports. */
  datatype Error =
    | NotEnabled        // 'server does not enabled.'
    | ServerMissing     // 'server does not exist.'
    | Transport(reason: string)

  /** The request object handed to `request`. */
  datatype ReqObj = ReqObj(hostname: string, port: nat, verb: Method,
                           payload: Option<seq<byte>>)

  /** A decoded response from a device. */
  datatype Response = Response(code: Code, payload: seq<byte>)

  /** What `request` settles with, and whether it handed the request to
      the outbound engine at all. */
  datatype RequestOutcome = RequestOutcome(result: Result<Response, Error>, sent: bool)

  /** `stop`: a disabled shepherd stops trivially; an enabled one without a
      server handle is rejected; otherwise the server is closed and the
      shepherd ends disabled with no server. */
  function Stop(s: State): (r: Result<State, Error>)
    ensures !s.enabled ==> r == Success(s)
    ensures s.enabled && s.server.None? ==> r == Failure(ServerMissing)
    ensures s.enabled && s.server.Some? ==>
      && r.Success?
      && !r.value.enabled && r.value.server.None?
      && r.value.registry == s.registry
      && r.value.clientIdCount == s.clientIdCount
  {
    if !s.enabled then Success(s)
    else if s.server.None? then Failure(ServerMissing)
    else Success(s.(enabled := false, server := None))
  }

  /** `request`: rejected without touching the network while disabled;
      otherwise settles as the outbound engine does. The engine itself
      (`_coapRequest`) is outside the model, so its outcome is the
      parameter `engine`. */
  function Request(s: State, req: ReqObj, engine: Result<Response, Error>): (r: RequestOutcome)
    ensures !s.enabled ==> r.result == Failure(NotEnabled) && !r.sent
    ensures s.enabled ==> r.sent && r.result == engine
  {
    if !s.enabled then RequestOutcome(Failure(NotEnabled), false)
    else RequestOutcome(engine, true)
  }

  /** Once `stop` has succeeded, every request is rejected and none is
      sent. */
  lemma StopThenRequestRejected(s: State, req: ReqObj, engine: Result<Response, Error>)
    requires Stop(s).Success?
    ensures Request(Stop(s).value, req, engine) == RequestOutcome(Failure(NotEnabled), false)
  {
  }

  /** `stop` is idempotent: stopping a stopped shepherd succeeds and
      changes nothing. */
  lemma StopIdempotent(s: State)
    requires Stop(s).Success?
    ensures Stop(Stop(s).value) == Stop(s)
  {
  }
}

=== FILE: wrappers.dfy ===
/** The two failure-compatible wrappers the model uses for lookups that
    may miss and for operations that may be rejected. */
module Wrappers {

  /** A value that may be absent: JavaScript's `undefined` or `null`. */
  datatype Option<+T> = None | Some(value: T)

  /** The settled state of a promise: resolved with a value or rejected
      with an error. */
  datatype Result<+T, +E> = Success(value: T) | Failure(error: E)
}
